=== FILE: README.md ===
# http-maven-plugin `http:call`, modelled in Dafny

This project models the core of the `HttpCallMojo` goal of the HTTP Maven
plugin. The goal makes one HTTP call during a build, retries it on transport
failures, optionally saves the response body to a file and copies values out
of the body into the project properties (by JSONPath or by regular
expression).

Modules, following the structure of `HttpCallMojo`:

- `Configuration`: the goal's parameters (`Config`), the project properties
  (`Properties`, a string map), and `hasExecutionFailed`.
- `FormEncoding`: `URLEncoder.encode(_, UTF_8)` and the `&`/`=` joining of
  `formData`, which is the `application/x-www-form-urlencoded` serializer of
  section 5.2 of the WHATWG URL Standard. Its partner is a parser that undoes
  it. UTF-8 encoding has its own decoder and round trip.
- `Requests`: `getBodyPublisher` and `buildRequest`.
- `Extraction`: `extractAndSetProperties`, `extractJsonValue` and
  `extractValue`. The JSONPath library and the regex engine are oracles.
- `Response`: `handleResponse`.
- `Execution`: `execute`, meaning the skip check and the retry loop.
  - The transport, sleep interruptions, the JDK builders' validation and the
    file system are parameters bundled in an `Environment`.
  - The attempts are a sequence of records, each saying whether a sleep came
    first and how the attempt ended.
  - The outcome is one of `Skipped`, `NoAttempts`, `Completed`,
    `FailedStatus`, `FailedAfterRetries`, `WarnedAfterRetries` or `Aborted`.
  - `Run` takes the request as a parameter; `Execute` passes it the one
    `BuildRequest` makes from the configuration.

Java behaviour made explicit:

- **Unchecked exceptions get past the retry handler**, which catches only
  `IOException | InterruptedException`. The run then ends as
  `Aborted(reason)`. Three causes are modelled:
  - `Thread.sleep` with a negative delay;
  - a request or timeout that the JDK builders reject;
  - an invalid `responseFile` path.
- **A capture group 1 that took no part in the match.** Storing `null` throws
  inside `extractValue`'s `try`, its handler catches the exception, and
  nothing is stored.
- **A JSON `null` is stored as the empty string.**
- **The loop counter is a Java `int`.** See Findings.

`handleResponse` checks the status (lines 245-247) before it saves the body
(lines 252-259): under `failOnError`, an error status stops the build before
anything is saved or extracted.

## Model

| member | source | states |
|---|---|---|
| FormEncoding.Encode | src/main/java/io/github/httpmaven/HttpCallMojo.java:227-228 | Encoding emits only unreserved characters, `+`, `%` and hex digits, so it never emits `&` or `=`, the form body's separators |
| FormEncoding.Utf8RoundTrip | src/main/java/io/github/httpmaven/HttpCallMojo.java:227-228 | The UTF-8 bytes of every character decode back to that character, with the length of the sequence fixed by the code point |
| FormEncoding.DecodeEncode | src/main/java/io/github/httpmaven/HttpCallMojo.java:227-228 | Percent-decoding undoes `URLEncoder.encode` for every string |
| FormEncoding.ParseSerialize | src/main/java/io/github/httpmaven/HttpCallMojo.java:226-229 | Parsing the form body gives back exactly the `formData` entries, in their iteration order, so no name or value is lost or merged |
| FormEncoding.EncodeCharExamples | src/test/java/io/github/httpmaven/HttpCallMojoTest.java:75-84 | The test's space becomes `+` and its `@` becomes `%40`; a two-byte character becomes two upper-case escapes |
| Requests.SelectBody | src/main/java/io/github/httpmaven/HttpCallMojo.java:224-233 | Non-empty `formData` wins and is sent as a body that parses back to it; otherwise `body` is sent verbatim if present; otherwise there is no body |
| Requests.FormDataWins | src/main/java/io/github/httpmaven/HttpCallMojo.java:225-231 | With non-empty `formData`, the value of `body` does not change the request body, and every form entry appears in it |
| Requests.BuildRequest | src/main/java/io/github/httpmaven/HttpCallMojo.java:204-217 | The request carries the configured method, URL, headers and timeout; its body parses back to a non-empty form, else is `body` verbatim if present, else absent |
| Requests.RequestIgnoresResponseSettings | src/main/java/io/github/httpmaven/HttpCallMojo.java:204-217 | The request depends only on method, URL, headers, form, body and timeout |
| Extraction.JsonRule | src/main/java/io/github/httpmaven/HttpCallMojo.java:280-291 | A value is stored exactly when JSONPath finds the path; JSON `null` is stored as ""; a missing path or any failure stores nothing |
| Extraction.RegexRule | src/main/java/io/github/httpmaven/HttpCallMojo.java:293-306 | A value is stored exactly when the pattern matches and group 1 (if the pattern has groups) took part; the value is group 1 if there are groups, else the whole match |
| Extraction.SelectRules | src/main/java/io/github/httpmaven/HttpCallMojo.java:268-278 | Only one rule set is used, with precedence `jsonPaths` > `jsonPath` > `extractPatterns` > `extractPattern`; the single forms write `outputProperty`; no rules exactly when none is configured |
| Extraction.ExtractAndSet | src/main/java/io/github/httpmaven/HttpCallMojo.java:268-278 | With no extraction configured the properties stay as they are; existing properties are never removed |
| Extraction.ApplyRulesEffect | src/main/java/io/github/httpmaven/HttpCallMojo.java:270-274 | Each rule that yields a value sets its own name, whatever the other rules yield; every other property keeps its value |
| Extraction.ForEachRule | src/main/java/io/github/httpmaven/HttpCallMojo.java:270-274 | Running the rules one by one, in any order, gives the store `ApplyRules` describes; map iteration order does not matter |
| Extraction.ExtractAndSetEffect | src/main/java/io/github/httpmaven/HttpCallMojo.java:268-278 | After extraction, every target of the chosen rule set that has a value is set to it; all other properties are unchanged |
| Extraction.JsonPathsTakePrecedence | src/main/java/io/github/httpmaven/HttpCallMojo.java:269-272 | With non-empty `jsonPaths`, `jsonPath`, both regex settings and `outputProperty` have no effect |
| Response.HandleResponse | src/main/java/io/github/httpmaven/HttpCallMojo.java:241-262 | Status >= 400 with `failOnError` fails before any save or extraction; an invalid file path aborts; otherwise the body is saved if asked (a failed write is only a warning) and the properties become the extraction result |
| Response.ErrorStatusStillExtracts | src/main/java/io/github/httpmaven/HttpCallMojo.java:245-261 | Without `failOnError`, an error status still reaches extraction |
| Execution.Run | src/main/java/io/github/httpmaven/HttpCallMojo.java:158-197 | With `skipOnFailure` and the failure flag present, nothing is attempted and nothing changes; a negative `retryCount` makes no attempt; at most `retryCount + 1` attempts; properties change only on completion |
| Execution.RunAttemptCount | src/main/java/io/github/httpmaven/HttpCallMojo.java:167-195 | A run that is not skipped and has `retryCount >= 0` makes at least one attempt; a failure ends the run only as attempt `retryCount + 1` |
| Execution.RunAttemptsInOrder | src/main/java/io/github/httpmaven/HttpCallMojo.java:167-183 | Attempt j is what the environment yields for index j, with the same request; a sleep comes before every attempt but the first; only a failure is followed by another attempt |
| Execution.RunSettles | src/main/java/io/github/httpmaven/HttpCallMojo.java:179-194 | The outcome follows from the last attempt. Exhausted retries happen exactly when it failed, fatal exactly under `failOnError`. `FailedStatus` happens exactly for an error status under `failOnError`. `Aborted` happens exactly for an unchecked exception or a rejected response-file path. `Completed` happens exactly for any other response, with its status, the body saved exactly when a response file is configured and the write succeeds, and the extraction result as the new properties |
| Execution.RetryLoop | src/main/java/io/github/httpmaven/HttpCallMojo.java:166-196 | The loop, counting with an unbounded integer instead of the source's `int` (see Findings), makes exactly the attempts `Attempts` lists, and none when `retryCount` is negative |
| Execution.AttemptOrder | src/main/java/io/github/httpmaven/HttpCallMojo.java:168-179 | One attempt sleeps first (never before attempt 0), so a negative delay aborts and an interrupted sleep is retried whatever the builders would say; then a request the builders reject aborts; only an accepted request is sent; a sent request ends as a response exactly when `send` returns one, and as a retryable failure carrying the thrown `IOException` or `InterruptedException` when `send` throws |
| Execution.Attempts | src/main/java/io/github/httpmaven/HttpCallMojo.java:167-185 | From attempt i the loop makes at least one and at most `retryCount + 1 - i` attempts |
| Execution.Final | src/main/java/io/github/httpmaven/HttpCallMojo.java:180-194 | The verdict on the last attempt keeps the attempts, is never `Skipped` or `NoAttempts`, and changes the properties only on completion; `FinalSettles` relates it to the last attempt |
| Execution.SkipsExactlyOnFailureFlag | src/main/java/io/github/httpmaven/HttpCallMojo.java:264-266 | With `skipOnFailure`, a run is skipped exactly when the failure flag is present, whatever its value, and then nothing is attempted or changed |
| Execution.DefaultsMakeOneAttempt | src/main/java/io/github/httpmaven/HttpCallMojo.java:46-149 | With only `url` given, exactly one attempt is made, without a sleep, and a failed attempt fails the build |
| Execution.Execute | src/main/java/io/github/httpmaven/HttpCallMojo.java:158-197 | The method, with its skip check, loop and verdict, computes what `Run` describes for the request `BuildRequest` makes |
| Execution.AttemptsInOrder | src/main/java/io/github/httpmaven/HttpCallMojo.java:167-185 | From attempt i on, attempts come in index order, only failures are followed by another attempt, and a trailing failure is attempt `retryCount` |
| Execution.FirstNonFailureEndsLoop | src/main/java/io/github/httpmaven/HttpCallMojo.java:179-181 | The loop stops at attempt n with something other than a failure exactly when attempts 0..n-1 failed and attempt n did not |
| Execution.LastFailsWhenAllFail | src/main/java/io/github/httpmaven/HttpCallMojo.java:183-195 | The last attempt is a failure exactly when all `retryCount + 1` attempts fail, and then all of them were made |
| Execution.ExhaustionWhenEveryAttemptFails | src/main/java/io/github/httpmaven/HttpCallMojo.java:183-194 | Exhausted retries happen exactly when the run is not skipped and every permitted attempt fails; they are fatal exactly under `failOnError`, and no property is written |
| Execution.RetriesUntilAnswered | src/main/java/io/github/httpmaven/HttpCallMojo.java:167-194 | With n failures then a good answer, `retryCount = n` completes after n + 1 attempts; a smaller `retryCount` ends in exhausted retries |
| Execution.CounterAfterWrap | src/main/java/io/github/httpmaven/HttpCallMojo.java:167 | After the wrap the `int` counter climbs again from `Integer.MIN_VALUE`, one per pass |
| Execution.CounterCountsPasses | src/main/java/io/github/httpmaven/HttpCallMojo.java:167 | Up to `Integer.MAX_VALUE`, the `int` counter equals the pass number |
| Execution.GuardNeverFailsAtMaxRetryCount | src/main/java/io/github/httpmaven/HttpCallMojo.java:167 | The `int` counter wraps to `Integer.MIN_VALUE` after `Integer.MAX_VALUE` and is back at 0 after 2^32 passes, so `attempt <= Integer.MAX_VALUE` never fails |

## Left out

- The HTTP transport is the `send` parameter of `Environment`, one answer per attempt index. Client construction and `Duration` arithmetic are not modelled.
- The JDK validation of the URI, method name and headers is the `accepts` parameter. A non-positive `timeout` is rejected explicitly, as `HttpRequest.Builder.timeout` does.
- `Thread.sleep` timing is not modelled. Only two things are: whether a sleep precedes the attempt, and whether it is interrupted (the `interrupted` parameter).
- File I/O is the `write` parameter. It returns written, `IOException`, or an invalid path.
- The JSONPath library and the regular-expression engine are the `Oracles` parameters. Their internals are outside the plugin.
- Logging is not modelled, because it has no effect on outcomes or properties.
- The `xpath` and `xpaths` parameters are not represented. No code path reads them.
- `HashMap` iteration order is not modelled:
  - `formData` is a sequence in its `entrySet()` order, because that order shapes the body;
  - the extraction rules are shown order-independent instead (`ForEachRule`).
- Java strings may hold lone UTF-16 surrogates, which `URLEncoder` replaces. Dafny characters are Unicode scalar values, so that case cannot arise in the model.
- `Decode` is total. It keeps malformed escapes as they are and differs from the WHATWG parser on such input. It serves only as the partner of `Encode`.
- `MojoFailureException` is declared by `execute` but never thrown, so it has no counterpart.
- The exception messages are not modelled. The outcome keeps the status code or the caught exception's cause instead.
- Execution.Execute: it counts attempts with an unbounded integer, so for `retryCount = Integer.MAX_VALUE` it stops after 2^31 attempts where the source loops forever (see Findings).
- Execution.Run: like `Execute`, it stops after `retryCount + 1` attempts even for `retryCount = Integer.MAX_VALUE` (see Findings).
- Execution.Run: its contract states only the skip, no-attempt, bound and unchanged-properties facts. The rest is in `RunAttemptCount`, `RunAttemptsInOrder` and `RunSettles`, which keeps each proof small.

## Findings

| source | as written | input that shows it | evidently intended | confidence | as-written member | corrected member |
|---|---|---|---|---|---|---|
| src/main/java/io/github/httpmaven/HttpCallMojo.java:167 | `for (int attempt = 0; attempt <= retryCount; attempt++)` with an `int` counter: after `Integer.MAX_VALUE`, `attempt++` wraps to `Integer.MIN_VALUE`, so the guard holds again | `retryCount = 2147483647`, `failOnError = false`, a transport whose every `send` throws `IOException`: the loop never ends | at most `retryCount + 1` attempts, then the exhausted-retries warning | not executed | Execution.GuardNeverFailsAtMaxRetryCount | Execution.RetryLoop |

=== FILE: configuration.dfy ===
/**
 * The plugin's configuration surface, as bound by Maven before `execute`
 * runs, and the property store it reads and writes.
 */
module Configuration {
  import opened Wrappers

  /** Java's `int`. */
  newtype int32 = x: int | -0x8000_0000 <= x < 0x8000_0000

  const MaxInt32: int32 := 0x7FFF_FFFF
  const MinInt32: int32 := -0x8000_0000

  /** The project properties: Maven's `Properties` seen as a string map. */
  type Properties = map<string, string>

  /** The key whose presence marks an earlier failed build step. */
  const FailureFlagKey: string := "maven.execution.failed"

  /**
   * One invocation's parameters. A `Map` parameter left unset (`null`) behaves
   * exactly like an empty one everywhere it is read, so both are the empty
   * map here; a `String` parameter keeps the `null`/`""` distinction through
   * `Option`. `formData` is kept as its entries in the order the map's
   * `entrySet()` yields them, since that order shapes the request body. The
   * inert `xpath`/`xpaths` parameters are not represented.
   */
  datatype Config = Config(
    url: string,
    httpMethod: string,
    headers: map<string, string>,
    formData: seq<(string, string)>,
    body: Option<string>,
    extractPattern: Option<string>,
    extractPatterns: map<string, string>,
    jsonPath: Option<string>,
    jsonPaths: map<string, string>,
    outputProperty: string,
    timeout: int32,
    retryCount: int32,
    retryDelay: int32,
    skipOnFailure: bool,
    responseFile: Option<string>,
    failOnError: bool)

  /** The configuration Maven binds when only `url` is given. */
  function Defaults(url: string): Config {
    Config(url, "GET", map[], [], None, None, map[], None, map[], "http.response",
           30, 0, 1000, false, None, true)
  }

  /** `hasExecutionFailed`: the failure flag is present in the project properties. */
  predicate HasExecutionFailed(props: Properties) {
    FailureFlagKey in props
  }
}

=== FILE: execution.dfy ===
/**
 * `execute`: the skip check and the retry loop around one HTTP call.
 *
 * Everything outside the plugin is a parameter: whether each sleep is
 * interrupted, whether the JDK builders accept the request, what each send
 * returns, what the file write does, and the extraction oracles.
 */
module Execution {
  import opened Configuration
  import opened Requests
  import opened Extraction
  import opened Response

  /** What `client.send` does on one attempt: an `IOException`, an `InterruptedException`, or a response. */
  datatype SendResult = SendFailed(message: string) | SendInterrupted | Received(response: HttpResponse)

  /** The exceptions the retry handler catches. */
  datatype Failure = IoFailure(message: string) | Interrupted

  /**
   * Unchecked exceptions that leave `execute` past the retry handler:
   * `Thread.sleep` of a negative delay, a request or client the JDK
   * builders refuse (bad URI, method or header, a timeout that is not
   * positive), and an invalid `responseFile` path.
   */
  datatype AbortReason = NegativeDelay | RequestRejected | ResponsePathRejected

  /** How one pass through the loop body ends. */
  datatype AttemptResult =
    | Failed(cause: Failure)
    | Responded(response: HttpResponse)
    | Escaped(reason: AbortReason)

  /** One attempt: whether it began with `Thread.sleep(retryDelay)`, and how it ended. */
  datatype AttemptRecord = AttemptRecord(sleptBefore: bool, result: AttemptResult)

  datatype Environment = Environment(
    interrupted: nat -> bool,
    accepts: Request -> bool,
    send: (nat, Request) -> SendResult,
    write: (string, string) -> WriteResult,
    oracles: Oracles)

  /** How `execute` ends. */
  datatype Termination =
    | Skipped
    | NoAttempts
    | Completed(status: int, saved: SaveOutcome)
    | FailedStatus(status: int)
    | FailedAfterRetries(cause: Failure)
    | WarnedAfterRetries(cause: Failure)
    | Aborted(reason: AbortReason)
  {
    /** The build stops. */
    predicate IsFatal() {
      FailedStatus? || FailedAfterRetries? || Aborted?
    }
  }

  datatype RunResult = RunResult(outcome: Termination, props: Properties, attempts: seq<AttemptRecord>)

  /** The most attempts the loop `for (attempt = 0; attempt <= retryCount; attempt++)` can make. */
  function MaxAttempts(cfg: Config): nat {
    if cfg.retryCount < 0 then 0 else cfg.retryCount as int + 1
  }

  /**
   * Attempt `i`, if the loop gets that far: sleep (not before the first),
   * build `request` (the same on every attempt) and the client, send.
   * `AttemptOrder` states what the order of these steps means.
   */
  function AttemptAt(cfg: Config, env: Environment, request: Request, i: nat): AttemptResult
  {
    if i > 0 && cfg.retryDelay < 0 then Escaped(NegativeDelay)
    else if i > 0 && env.interrupted(i) then Failed(Interrupted)
    else if cfg.timeout <= 0 || !env.accepts(request) then Escaped(RequestRejected)
      else match env.send(i, request)
        case SendFailed(message) => Failed(IoFailure(message))
        case SendInterrupted => Failed(Interrupted)
        case Received(response) => Responded(response)
  }

  /**
   * The sleep comes first, so its exceptions win over the builders'; a
   * builder's exception wins over the send; only a request both builders
   * accept is sent, and the first attempt never sleeps. A request that is
   * sent ends as its answer: a response is handled, and an `IOException` or
   * `InterruptedException` from `send` is a failure the loop may retry.
   */
  lemma AttemptOrder(cfg: Config, env: Environment, request: Request, i: nat)
    ensures var r := AttemptAt(cfg, env, request, i);
      r == Escaped(NegativeDelay) <==> i > 0 && cfg.retryDelay < 0
    ensures var r := AttemptAt(cfg, env, request, i);
      i > 0 && cfg.retryDelay >= 0 && env.interrupted(i) ==> r == Failed(Interrupted)
    ensures var r := AttemptAt(cfg, env, request, i);
      r == Escaped(RequestRejected) <==>
        (i == 0 || (cfg.retryDelay >= 0 && !env.interrupted(i))) && (cfg.timeout <= 0 || !env.accepts(request))
    ensures var r := AttemptAt(cfg, env, request, i);
      r.Responded? ==> cfg.timeout > 0 && env.accepts(request) && env.send(i, request) == Received(r.response)
    ensures var r := AttemptAt(cfg, env, request, i);
      var sent := (i == 0 || (cfg.retryDelay >= 0 && !env.interrupted(i))) && cfg.timeout > 0 && env.accepts(request);
      sent && env.send(i, request).Received? ==> r == Responded(env.send(i, request).response)
    ensures var r := AttemptAt(cfg, env, request, i);
      var sent := (i == 0 || (cfg.retryDelay >= 0 && !env.interrupted(i))) && cfg.timeout > 0 && env.accepts(request);
      sent && !env.send(i, request).Received? ==> r.Failed?
    ensures var r := AttemptAt(cfg, env, request, i);
      var sent := (i == 0 || (cfg.retryDelay >= 0 && !env.interrupted(i))) && cfg.timeout > 0 && env.accepts(request);
      sent && env.send(i, request).SendFailed? ==> r == Failed(IoFailure(env.send(i, request).message))
    ensures var r := AttemptAt(cfg, env, request, i);
      var sent := (i == 0 || (cfg.retryDelay >= 0 && !env.interrupted(i))) && cfg.timeout > 0 && env.accepts(request);
      sent && env.send(i, request).SendInterrupted? ==> r == Failed(Interrupted)
  {
  }

  function Record(cfg: Config, env: Environment, request: Request, i: nat): AttemptRecord {
    AttemptRecord(i > 0, AttemptAt(cfg, env, request, i))
  }

  /**
   * A run whose last attempt ended in `last` ends on exhausted retries
   * exactly when `last` failed, with that failure as its cause, fatally
   * exactly when `failOnError` holds.
   */
  predicate EndsOnFailure(cfg: Config, last: AttemptResult, outcome: Termination) {
    && (outcome.FailedAfterRetries? || outcome.WarnedAfterRetries? <==> last.Failed?)
    && (last.Failed? ==> outcome.cause == last.cause && (outcome.FailedAfterRetries? <==> cfg.failOnError))
  }

  /**
   * A response with an error status under `failOnError` fails the build;
   * a completed run took its status from the response, saved the body
   * exactly when a response file is configured and the write succeeded,
   * and took its properties from extraction on the response body.
   */
  predicate EndsOnResponse(cfg: Config, props: Properties, env: Environment, last: AttemptResult, r: RunResult) {
    && (r.outcome.FailedStatus? <==>
          last.Responded? && IsErrorStatus(last.response.status) && cfg.failOnError)
    && (r.outcome.FailedStatus? ==> r.outcome.status == last.response.status)
    && (r.outcome.Completed? <==>
          && last.Responded?
          && !(IsErrorStatus(last.response.status) && cfg.failOnError)
          && !(cfg.responseFile.Some? && env.write(cfg.responseFile.value, last.response.body) == PathRejected))
    && (r.outcome.Completed? ==>
          && r.outcome.status == last.response.status
          && r.props == ExtractAndSet(cfg, last.response.body, props, env.oracles)
          && (r.outcome.saved == NotRequested <==> cfg.responseFile.None?)
          && (r.outcome.saved == Saved <==>
                cfg.responseFile.Some? && env.write(cfg.responseFile.value, last.response.body) == Written))
  }

  /**
   * A run aborts exactly on an unchecked exception: one escaping the
   * attempt, or the rejected path of the response file.
   */
  predicate EndsOnAbort(cfg: Config, env: Environment, last: AttemptResult, outcome: Termination) {
    && (last.Escaped? ==> outcome == Aborted(last.reason))
    && (outcome.Aborted? <==>
          || last.Escaped?
          || (&& last.Responded?
              && !(IsErrorStatus(last.response.status) && cfg.failOnError)
              && cfg.responseFile.Some?
              && env.write(cfg.responseFile.value, last.response.body) == PathRejected))
    && (outcome.Aborted? && last.Responded? ==> outcome.reason == ResponsePathRejected)
  }

  /** How a run settles on the result `last` of its last attempt. */
  predicate SettlesOn(cfg: Config, props: Properties, env: Environment, last: AttemptResult, r: RunResult) {
    && EndsOnFailure(cfg, last, r.outcome)
    && EndsOnResponse(cfg, props, env, last, r)
    && EndsOnAbort(cfg, env, last, r.outcome)
  }

  /** How a run that made `attempts` ends, by the last of them. */
  function Final(cfg: Config, props: Properties, env: Environment, attempts: seq<AttemptRecord>): (r: RunResult)
    requires |attempts| > 0
    ensures r.attempts == attempts
    ensures !r.outcome.Completed? ==> r.props == props
    ensures !r.outcome.Skipped? && !r.outcome.NoAttempts?
  {
    match attempts[|attempts| - 1].result
    case Escaped(reason) => RunResult(Aborted(reason), props, attempts)
    case Failed(cause) =>
      RunResult(if cfg.failOnError then FailedAfterRetries(cause) else WarnedAfterRetries(cause), props, attempts)
    case Responded(response) =>
      match HandleResponse(cfg, response, props, env.write, env.oracles)
      case StatusError(status) => RunResult(FailedStatus(status), props, attempts)
      case SavePathRejected => RunResult(Aborted(ResponsePathRejected), props, attempts)
      case Processed(saved, props') => RunResult(Completed(response.status, saved), props', attempts)
  }

  /** The attempts the loop makes from attempt `i` on; `AttemptsInOrder` states what they are. */
  function Attempts(cfg: Config, env: Environment, request: Request, i: nat): (records: seq<AttemptRecord>)
    requires i <= cfg.retryCount as int
    ensures 1 <= |records| <= MaxAttempts(cfg) - i
    decreases cfg.retryCount as int - i
  {
    var record := Record(cfg, env, request, i);
    if record.result.Failed? && i < cfg.retryCount as int then [record] + Attempts(cfg, env, request, i + 1)
    else [record]
  }

  /**
   * From attempt `i` on, the loop makes its attempts in order, each one what
   * the environment yields for its index; only a failure is followed by
   * another attempt, and a failure is the last attempt only when no attempt
   * is left.
   */
  lemma {:induction false} AttemptsInOrder(cfg: Config, env: Environment, request: Request, i: nat)
    requires i <= cfg.retryCount as int
    ensures forall j :: 0 <= j < |Attempts(cfg, env, request, i)| ==> Attempts(cfg, env, request, i)[j] == Record(cfg, env, request, i + j)
    ensures forall j :: 0 <= j < |Attempts(cfg, env, request, i)| - 1 ==> Attempts(cfg, env, request, i)[j].result.Failed?
    ensures var n := |Attempts(cfg, env, request, i)|;
      !AttemptAt(cfg, env, request, i + n - 1).Failed? || i + n - 1 == cfg.retryCount as int
    decreases cfg.retryCount as int - i
  {
    var records := Attempts(cfg, env, request, i);
    var record := Record(cfg, env, request, i);
    if record.result.Failed? && i < cfg.retryCount as int {
      var rest := Attempts(cfg, env, request, i + 1);
      AttemptsInOrder(cfg, env, request, i + 1);
      assert records == [record] + rest;
      assert i + |records| - 1 == (i + 1) + |rest| - 1;
      forall j | 0 <= j < |records|
        ensures records[j] == Record(cfg, env, request, i + j)
      {
        if j > 0 {
          assert records[j] == rest[j - 1];
          assert (i + 1) + (j - 1) == i + j;
        }
      }
    }
  }

  /** A run settles on its last attempt. */
  lemma FinalSettles(cfg: Config, props: Properties, env: Environment, attempts: seq<AttemptRecord>)
    requires |attempts| > 0
    ensures SettlesOn(cfg, props, env, attempts[|attempts| - 1].result, Final(cfg, props, env, attempts))
  {
    var last := attempts[|attempts| - 1].result;
    if last.Responded? {
      var handled := HandleResponse(cfg, last.response, props, env.write, env.oracles);
      assert handled.StatusError? <==> IsErrorStatus(last.response.status) && cfg.failOnError;
    }
  }

  /** The loop itself, once it is known to run: attempts `0..` with `request`. */
  function RunLoop(cfg: Config, props: Properties, env: Environment, request: Request): (r: RunResult)
    requires cfg.retryCount >= 0
    ensures 1 <= |r.attempts| <= MaxAttempts(cfg)
    ensures forall j :: 0 <= j < |r.attempts| ==> r.attempts[j] == Record(cfg, env, request, j)
    ensures forall j :: 0 <= j < |r.attempts| ==> (r.attempts[j].sleptBefore <==> j > 0)
    ensures forall j :: 0 <= j < |r.attempts| - 1 ==> r.attempts[j].result.Failed?
    ensures r.attempts[|r.attempts| - 1].result.Failed? ==> |r.attempts| == MaxAttempts(cfg)
    ensures !r.outcome.Completed? ==> r.props == props
  {
    var attempts := Attempts(cfg, env, request, 0);
    AttemptsInOrder(cfg, env, request, 0);
    LastAttemptIsAttemptAt(cfg, env, request);
    Final(cfg, props, env, attempts)
  }

  /**
   * `execute`. With `skipOnFailure` and the failure flag present nothing is
   * attempted and nothing changes; with a negative `retryCount` the loop
   * body never runs; at most `retryCount + 1` attempts are made, and the
   * properties change only when a response is processed to completion.
   * `RunAttemptCount`, `RunAttemptsInOrder` and `RunSettles` state the rest.
   */
  function Run(cfg: Config, props: Properties, env: Environment, request: Request): (r: RunResult)
    ensures cfg.skipOnFailure && HasExecutionFailed(props) ==> r == RunResult(Skipped, props, [])
    ensures !(cfg.skipOnFailure && HasExecutionFailed(props)) && cfg.retryCount < 0 ==>
              r == RunResult(NoAttempts, props, [])
    ensures |r.attempts| <= MaxAttempts(cfg)
    ensures !r.outcome.Completed? ==> r.props == props
  {
    if cfg.skipOnFailure && HasExecutionFailed(props) then RunResult(Skipped, props, [])
    else if cfg.retryCount < 0 then RunResult(NoAttempts, props, [])
    else RunLoop(cfg, props, env, request)
  }

  /**
   * A run that is not skipped and has `retryCount >= 0` makes at least one
   * attempt, and a failure ends it only as attempt `retryCount + 1`.
   */
  lemma RunAttemptCount(cfg: Config, props: Properties, env: Environment, request: Request)
    ensures var r := Run(cfg, props, env, request);
      !(cfg.skipOnFailure && HasExecutionFailed(props)) && cfg.retryCount >= 0 ==> |r.attempts| >= 1
    ensures var r := Run(cfg, props, env, request);
      |r.attempts| > 0 && r.attempts[|r.attempts| - 1].result.Failed? ==> |r.attempts| == MaxAttempts(cfg)
  {
    var r := Run(cfg, props, env, request);
    if !(cfg.skipOnFailure && HasExecutionFailed(props)) && cfg.retryCount >= 0 {
      assert r == RunLoop(cfg, props, env, request);
    } else {
      assert r.attempts == [];
    }
  }

  /**
   * Each attempt of a run is the one the environment yields for its index,
   * with the same request, after a sleep except the first; only a failure
   * is followed by another attempt.
   */
  lemma RunAttemptsInOrder(cfg: Config, props: Properties, env: Environment, request: Request)
    ensures var r := Run(cfg, props, env, request);
      forall j :: 0 <= j < |r.attempts| ==> (r.attempts[j].sleptBefore <==> j > 0)
    ensures var r := Run(cfg, props, env, request);
      forall j :: 0 <= j < |r.attempts| ==> r.attempts[j] == Record(cfg, env, request, j)
    ensures var r := Run(cfg, props, env, request);
      forall j :: 0 <= j < |r.attempts| - 1 ==> r.attempts[j].result.Failed?
  {
    var r := Run(cfg, props, env, request);
    if !(cfg.skipOnFailure && HasExecutionFailed(props)) && cfg.retryCount >= 0 {
      assert r == RunLoop(cfg, props, env, request);
    } else {
      assert r.attempts == [];
    }
  }

  /**
   * A run that makes attempts settles on the last of them: exhausted retries
   * only after `retryCount + 1` failures, fatal exactly with `failOnError`;
   * a failed build on an error status exactly with `failOnError`; an abort
   * exactly on an unchecked exception; new properties only on completion.
   */
  lemma RunSettles(cfg: Config, props: Properties, env: Environment, request: Request)
    ensures var r := Run(cfg, props, env, request);
      |r.attempts| > 0 ==> SettlesOn(cfg, props, env, AttemptAt(cfg, env, request, |r.attempts| - 1), r)
  {
    var r := Run(cfg, props, env, request);
    if !(cfg.skipOnFailure && HasExecutionFailed(props)) && cfg.retryCount >= 0 {
      var attempts := Attempts(cfg, env, request, 0);
      assert r == Final(cfg, props, env, attempts);
      LastAttemptIsAttemptAt(cfg, env, request);
      FinalSettles(cfg, props, env, attempts);
    } else {
      assert r.attempts == [];
    }
  }

  /** The last attempt the loop makes is the one the environment yields for its index. */
  lemma LastAttemptIsAttemptAt(cfg: Config, env: Environment, request: Request)
    requires cfg.retryCount >= 0
    ensures var attempts := Attempts(cfg, env, request, 0);
      attempts[|attempts| - 1].result == AttemptAt(cfg, env, request, |attempts| - 1)
  {
    var attempts := Attempts(cfg, env, request, 0);
    AttemptsInOrder(cfg, env, request, 0);
    assert attempts[|attempts| - 1] == Record(cfg, env, request, 0 + |attempts| - 1);
  }

  /** One step of `Attempts`. */
  lemma AttemptsStep(cfg: Config, env: Environment, request: Request, i: nat)
    requires i <= cfg.retryCount as int
    ensures AttemptAt(cfg, env, request, i).Failed? && i < cfg.retryCount as int ==>
              Attempts(cfg, env, request, i) == [Record(cfg, env, request, i)] + Attempts(cfg, env, request, i + 1)
    ensures !(AttemptAt(cfg, env, request, i).Failed? && i < cfg.retryCount as int) ==>
              Attempts(cfg, env, request, i) == [Record(cfg, env, request, i)]
  {
  }

  /**
   * The retry loop of `execute`, with an unbounded counter in place of the
   * source's `int` (see `GuardNeverFailsAtMaxRetryCount`): an attempt that
   * fails (the `catch (IOException | InterruptedException)` handler) is
   * followed by the next while `attempt <= retryCount`; a response or an
   * unchecked exception leaves the loop at once. It makes exactly the
   * attempts `Attempts` lists.
   */
  method RetryLoop(cfg: Config, env: Environment, request: Request) returns (attempts: seq<AttemptRecord>)
    ensures cfg.retryCount < 0 ==> attempts == []
    ensures cfg.retryCount >= 0 ==> attempts == Attempts(cfg, env, request, 0)
  {
    attempts := [];
    var attempt: int := 0;
    while attempt <= cfg.retryCount as int
      invariant 0 <= attempt <= MaxAttempts(cfg)
      invariant |attempts| == attempt
      invariant attempt <= cfg.retryCount as int ==>
                  Attempts(cfg, env, request, 0) == attempts + Attempts(cfg, env, request, attempt)
      invariant attempt == MaxAttempts(cfg) > 0 ==> Attempts(cfg, env, request, 0) == attempts
      decreases cfg.retryCount as int - attempt
    {
      var result := AttemptAt(cfg, env, request, attempt);
      var record := AttemptRecord(attempt > 0, result);
      AttemptsStep(cfg, env, request, attempt);
      assert record == Record(cfg, env, request, attempt);
      ghost var before := attempts;
      attempts := attempts + [record];
      if !result.Failed? {
        assert Attempts(cfg, env, request, attempt) == [record];
        return;
      }
      if attempt < cfg.retryCount as int {
        ghost var rest := Attempts(cfg, env, request, attempt + 1);
        assert before + ([record] + rest) == attempts + rest;
      }
      attempt := attempt + 1;
    }
  }

  /**
   * `execute`: the skip check, the retry loop, then the verdict on its last
   * attempt (`handleResponse`, the handler's failure, or the escaping
   * exception); it computes exactly what `Run` describes.
   */
  method Execute(cfg: Config, props: Properties, env: Environment) returns (r: RunResult)
    ensures r == Run(cfg, props, env, BuildRequest(cfg))
  {
    if cfg.skipOnFailure && HasExecutionFailed(props) {
      return RunResult(Skipped, props, []);
    }
    var request := BuildRequest(cfg);
    var attempts := RetryLoop(cfg, env, request);
    if |attempts| == 0 {
      return RunResult(NoAttempts, props, []);
    }
    r := Final(cfg, props, env, attempts);
  }

  /**
   * The loop stops at attempt `n` on something other than a failure exactly
   * when every earlier attempt failed and attempt `n` did not: the first
   * response (or unchecked exception) ends the loop, whatever attempts remain.
   */
  lemma FirstNonFailureEndsLoop(cfg: Config, env: Environment, request: Request, n: nat)
    requires n <= cfg.retryCount as int
    ensures var records := Attempts(cfg, env, request, 0);
      (|records| == n + 1 && !records[n].result.Failed?) <==>
      ((forall j :: 0 <= j < n ==> AttemptAt(cfg, env, request, j).Failed?) &&
       !AttemptAt(cfg, env, request, n).Failed?)
  {
    var records := Attempts(cfg, env, request, 0);
    AttemptsInOrder(cfg, env, request, 0);
    var last := |records| - 1;
    assert records[last] == Record(cfg, env, request, 0 + last);
    if last > n {
      assert records[n] == Record(cfg, env, request, 0 + n);
    }
    if |records| == n + 1 && !records[n].result.Failed? {
      forall j | 0 <= j < n
        ensures AttemptAt(cfg, env, request, j).Failed?
      {
        assert records[j] == Record(cfg, env, request, 0 + j);
      }
      assert records[n] == Record(cfg, env, request, 0 + n);
    }
  }

  /** The last attempt is a failure exactly when all `retryCount + 1` attempts fail. */
  lemma LastFailsWhenAllFail(cfg: Config, env: Environment, request: Request)
    requires cfg.retryCount >= 0
    ensures var records := Attempts(cfg, env, request, 0);
      records[|records| - 1].result.Failed? <==>
      forall j :: 0 <= j < MaxAttempts(cfg) ==> AttemptAt(cfg, env, request, j).Failed?
    ensures var records := Attempts(cfg, env, request, 0);
      records[|records| - 1].result.Failed? ==> |records| == MaxAttempts(cfg)
  {
    AttemptsInOrder(cfg, env, request, 0);
    LastAttemptIsAttemptAt(cfg, env, request);
    LastFailsIffAllFail(cfg, env, request, Attempts(cfg, env, request, 0));
  }

  /**
   * For any run of attempts laid out as the loop lays them out, the last
   * attempt fails exactly when every permitted attempt fails.
   */
  lemma LastFailsIffAllFail(cfg: Config, env: Environment, request: Request, attempts: seq<AttemptRecord>)
    requires 0 < |attempts| <= MaxAttempts(cfg)
    requires forall j :: 0 <= j < |attempts| ==> attempts[j] == Record(cfg, env, request, j)
    requires forall j :: 0 <= j < |attempts| - 1 ==> attempts[j].result.Failed?
    requires attempts[|attempts| - 1].result.Failed? ==> |attempts| == MaxAttempts(cfg)
    ensures attempts[|attempts| - 1].result.Failed? <==>
            forall j :: 0 <= j < MaxAttempts(cfg) ==> AttemptAt(cfg, env, request, j).Failed?
  {
    var n := |attempts| - 1;
    assert attempts[n] == Record(cfg, env, request, n);
    if attempts[n].result.Failed? {
      forall j | 0 <= j < MaxAttempts(cfg)
        ensures AttemptAt(cfg, env, request, j).Failed?
      {
        assert attempts[j] == Record(cfg, env, request, j);
      }
    }
  }

  /**
   * The run ends on exhausted retries exactly when it was not skipped and
   * every one of the `retryCount + 1` attempts failed; it is then fatal
   * exactly when `failOnError` holds, and no property is written.
   */
  lemma ExhaustionWhenEveryAttemptFails(cfg: Config, props: Properties, env: Environment, request: Request)
    ensures var r := Run(cfg, props, env, request);
      (r.outcome.FailedAfterRetries? || r.outcome.WarnedAfterRetries?) <==>
      (&& !(cfg.skipOnFailure && HasExecutionFailed(props))
       && MaxAttempts(cfg) > 0
       && forall j :: 0 <= j < MaxAttempts(cfg) ==> AttemptAt(cfg, env, request, j).Failed?)
    ensures var r := Run(cfg, props, env, request);
      r.outcome.FailedAfterRetries? || r.outcome.WarnedAfterRetries? ==>
        |r.attempts| == MaxAttempts(cfg) && r.props == props && (r.outcome.IsFatal() <==> cfg.failOnError)
  {
    var r := Run(cfg, props, env, request);
    RunSettles(cfg, props, env, request);
    RunAttemptCount(cfg, props, env, request);
    RunAttemptsInOrder(cfg, props, env, request);
    if |r.attempts| > 0 {
      LastFailsIffAllFail(cfg, env, request, r.attempts);
    }
  }

  /**
   * A transport that fails `n` times and then answers: with `retryCount == n`
   * the run makes `n + 1` attempts and processes the answer; with fewer
   * retries it ends on exhausted retries.
   */
  lemma RetriesUntilAnswered(cfg: Config, props: Properties, env: Environment, request: Request, n: nat)
    requires !(cfg.skipOnFailure && HasExecutionFailed(props))
    requires forall j :: 0 <= j < n ==> AttemptAt(cfg, env, request, j).Failed?
    requires AttemptAt(cfg, env, request, n).Responded?
    requires !IsErrorStatus(AttemptAt(cfg, env, request, n).response.status)
    requires cfg.responseFile.None? ||
             env.write(cfg.responseFile.value, AttemptAt(cfg, env, request, n).response.body) != PathRejected
    ensures cfg.retryCount as int == n ==>
              |Run(cfg, props, env, request).attempts| == n + 1 && Run(cfg, props, env, request).outcome.Completed?
    ensures 0 <= cfg.retryCount as int < n ==>
              Run(cfg, props, env, request).outcome.FailedAfterRetries? || Run(cfg, props, env, request).outcome.WarnedAfterRetries?
  {
    var r := Run(cfg, props, env, request);
    RunSettles(cfg, props, env, request);
    RunAttemptCount(cfg, props, env, request);
    RunAttemptsInOrder(cfg, props, env, request);
    if cfg.retryCount as int == n {
      var last := |r.attempts| - 1;
      assert r.attempts[last] == Record(cfg, env, request, last);
    } else if 0 <= cfg.retryCount as int < n {
      ExhaustionWhenEveryAttemptFails(cfg, props, env, request);
    }
  }

  /**
   * Only the presence of the failure flag matters, never its value: with
   * `skipOnFailure` a run is skipped exactly when the flag is present, and
   * then no attempt is made and no property changes.
   */
  lemma SkipsExactlyOnFailureFlag(cfg: Config, props: Properties, env: Environment, request: Request, value: string)
    ensures Run(cfg, props, env, request).outcome.Skipped? <==> cfg.skipOnFailure && FailureFlagKey in props
    ensures cfg.skipOnFailure ==>
              Run(cfg, props[FailureFlagKey := value], env, request) == RunResult(Skipped, props[FailureFlagKey := value], [])
  {
    if !(cfg.skipOnFailure && HasExecutionFailed(props)) {
      RunAttemptCount(cfg, props, env, request);
      if cfg.retryCount >= 0 {
        assert Run(cfg, props, env, request) == RunLoop(cfg, props, env, request);
      }
    }
  }

  /**
   * With only `url` given, the goal makes exactly one attempt, with no sleep
   * before it, and a failed attempt fails the build.
   */
  lemma DefaultsMakeOneAttempt(url: string, props: Properties, env: Environment)
    ensures var cfg := Defaults(url);
      var r := Run(cfg, props, env, BuildRequest(cfg));
      && |r.attempts| == 1
      && !r.attempts[0].sleptBefore
      && (r.attempts[0].result.Failed? ==> r.outcome.FailedAfterRetries?)
  {
    var cfg := Defaults(url);
    var request := BuildRequest(cfg);
    assert Run(cfg, props, env, request) == RunLoop(cfg, props, env, request);
    RunSettles(cfg, props, env, request);
    RunAttemptsInOrder(cfg, props, env, request);
  }

  // ------------------------------------------------ the 32-bit loop counter

  /** `attempt++` on a Java `int`: two's-complement wrap-around at the top. */
  function IncrementAsWritten(attempt: int32): int32 {
    if attempt == MaxInt32 then MinInt32 else attempt + 1
  }

  /** The source's `attempt` at the start of the `k`-th pass through the loop (counting from 0). */
  function CounterAsWritten(k: nat): int32 {
    if k == 0 then 0 else IncrementAsWritten(CounterAsWritten(k - 1))
  }

  /** Up to `Integer.MAX_VALUE` the counter is the pass number. */
  lemma {:induction false} CounterCountsPasses(k: nat)
    requires k <= MaxInt32 as int
    ensures CounterAsWritten(k) as int == k
  {
    if k > 0 {
      CounterCountsPasses(k - 1);
    }
  }

  /**
   * With `retryCount == Integer.MAX_VALUE` the guard `attempt <= retryCount`
   * of the source never fails. The first clause is only the range of an
   * `int`; the finding is in the others: after attempt 2147483647 the counter
   * wraps to -2147483648, and 2^32 passes in it is back at 0, so with
   * `failOnError` off and a transport that keeps failing the loop never
   * ends. `Attempts` and `RetryLoop` count with an unbounded integer and stop
   * after `retryCount + 1` attempts.
   */
  lemma GuardNeverFailsAtMaxRetryCount(k: nat)
    ensures CounterAsWritten(k) <= MaxInt32
    ensures k == MaxInt32 as int + 1 ==> CounterAsWritten(k) == MinInt32
    ensures k == 2 * (MaxInt32 as int + 1) ==> CounterAsWritten(k) == 0
  {
    if k == MaxInt32 as int + 1 {
      CounterCountsPasses(k - 1);
    } else if k == 2 * (MaxInt32 as int + 1) {
      CounterAfterWrap(MaxInt32 as int + 1);
    }
  }

  /** After the wrap the counter climbs again from `Integer.MIN_VALUE`. */
  lemma {:induction false} CounterAfterWrap(m: nat)
    requires m <= MaxInt32 as int + 1
    ensures CounterAsWritten(MaxInt32 as int + 1 + m) as int == MinInt32 as int + m
  {
    if m == 0 {
      CounterCountsPasses(MaxInt32 as int);
    } else {
      CounterAfterWrap(m - 1);
    }
  }
}

=== FILE: extraction.dfy ===
/**
 * `extractAndSetProperties`, `extractJsonValue` and `extractValue`: the rules
 * that copy values out of the response body into the project properties.
 *
 * The JSONPath library and the regular-expression engine are oracles: the
 * model fixes what the plugin does with their answers, not the answers.
 */
module Extraction {
  import opened Wrappers
  import opened Configuration

  /**
   * `JsonPath.read(json, path)`: a value (`None` for JSON `null`, otherwise
   * its `toString()`), `PathNotFoundException`, or any other exception
   * (malformed JSON, invalid path).
   */
  datatype JsonResult = Found(value: Option<string>) | NotFound | Malformed

  /**
   * `Pattern.compile(pattern).matcher(text).find()`: no match, the first
   * match (`group(0)` and `group(1..groupCount())`, a group that took no part
   * in the match being `None`), or an exception (a bad pattern).
   */
  datatype MatchResult = NoMatch | Match(whole: string, groups: seq<Option<string>>) | BadPattern

  datatype Oracles = Oracles(
    readJson: (string, string) -> JsonResult,
    find: (string, string) -> MatchResult)

  /**
   * The value `extractJsonValue` stores: a JSON `null` is stored as the empty
   * string; a missing path and any failure store nothing.
   */
  function JsonRule(json: string, path: string, readJson: (string, string) -> JsonResult): (v: Option<string>)
    ensures v.Some? <==> readJson(json, path).Found?
    ensures v.Some? ==> v.value == readJson(json, path).value.GetOr("")
  {
    match readJson(json, path)
    case Found(value) => Some(value.GetOr(""))
    case NotFound => None
    case Malformed => None
  }

  /**
   * The value `extractValue` stores: capture group 1 when the pattern has a
   * group, else the whole match. No match and a bad pattern store nothing,
   * and so does a group 1 that took no part in the match, since storing
   * `null` throws inside the handler.
   */
  function RegexRule(text: string, pattern: string, find: (string, string) -> MatchResult): (v: Option<string>)
    ensures v.Some? <==> (find(text, pattern).Match? &&
              (|find(text, pattern).groups| == 0 || find(text, pattern).groups[0].Some?))
    ensures v.Some? && |find(text, pattern).groups| == 0 ==> v.value == find(text, pattern).whole
    ensures v.Some? && |find(text, pattern).groups| > 0 ==> v == find(text, pattern).groups[0]
  {
    match find(text, pattern)
    case Match(whole, groups) => if |groups| > 0 then groups[0] else Some(whole)
    case NoMatch => None
    case BadPattern => None
  }

  /** The rule set `extractAndSetProperties` runs, as output name to expression. */
  datatype RuleSet = JsonRules(paths: map<string, string>) | RegexRules(patterns: map<string, string>) | NoRules {
    function Targets(): set<string> {
      match this
      case JsonRules(paths) => paths.Keys
      case RegexRules(patterns) => patterns.Keys
      case NoRules => {}
    }

    /** What the rule for output `name` yields on `body`. */
    function ValueFor(name: string, body: string, oracles: Oracles): Option<string>
      requires name in Targets()
    {
      match this
      case JsonRules(paths) => JsonRule(body, paths[name], oracles.readJson)
      case RegexRules(patterns) => RegexRule(body, patterns[name], oracles.find)
    }
  }

  /**
   * The store after every rule of `rules` has run once on `body`, each on
   * its own; `ApplyRulesEffect` states what that does to each name.
   */
  function ApplyRules(props: Properties, rules: RuleSet, body: string, oracles: Oracles): Properties {
    props + map name | name in rules.Targets() && rules.ValueFor(name, body, oracles).Some? ::
              rules.ValueFor(name, body, oracles).value
  }

  /**
   * A rule that yields a value sets its output name to it, whatever the
   * other rules yield; every other name keeps its value or stays absent.
   * Rules never read the store, so the order in which they run does not
   * matter (`ForEachRule`).
   */
  lemma ApplyRulesEffect(props: Properties, rules: RuleSet, body: string, oracles: Oracles)
    ensures var r := ApplyRules(props, rules, body, oracles);
      forall name :: name in rules.Targets() && rules.ValueFor(name, body, oracles).Some? ==>
        name in r && r[name] == rules.ValueFor(name, body, oracles).value
    ensures var r := ApplyRules(props, rules, body, oracles);
      forall name :: name !in rules.Targets() || rules.ValueFor(name, body, oracles).None? ==>
        (name in r <==> name in props) && (name in props ==> r[name] == props[name])
  {
  }

  /**
   * `forEach` over the rule map: the rules run one after another in the
   * map's iteration order, chosen here arbitrarily. Whatever the order, the
   * result is the one `ApplyRules` describes.
   */
  method ForEachRule(props: Properties, rules: RuleSet, body: string, oracles: Oracles) returns (r: Properties)
    ensures r == ApplyRules(props, rules, body, oracles)
  {
    r := props;
    var pending := rules.Targets();
    while pending != {}
      invariant pending <= rules.Targets()
      invariant forall name :: name in rules.Targets() && name !in pending && rules.ValueFor(name, body, oracles).Some? ==>
                  name in r && r[name] == rules.ValueFor(name, body, oracles).value
      invariant forall name :: name !in rules.Targets() || name in pending || rules.ValueFor(name, body, oracles).None? ==>
                  (name in r <==> name in props) && (name in props ==> r[name] == props[name])
      decreases pending
    {
      var name :| name in pending;
      var value := rules.ValueFor(name, body, oracles);
      if value.Some? {
        r := r[name := value.value];
      }
      pending := pending - {name};
    }
    ghost var expected := ApplyRules(props, rules, body, oracles);
    ApplyRulesEffect(props, rules, body, oracles);
    assert r.Keys == expected.Keys;
    assert forall name | name in r :: r[name] == expected[name];
  }

  /**
   * The fixed precedence: `jsonPaths` if non-empty, then `jsonPath`, then
   * `extractPatterns` if non-empty, then `extractPattern`, the single forms
   * writing to `outputProperty`. Exactly the first configured one is chosen.
   */
  function SelectRules(cfg: Config): (s: RuleSet)
    ensures |cfg.jsonPaths| > 0 ==> s == JsonRules(cfg.jsonPaths)
    ensures |cfg.jsonPaths| == 0 && cfg.jsonPath.Some? ==>
              s == JsonRules(map[cfg.outputProperty := cfg.jsonPath.value])
    ensures |cfg.jsonPaths| == 0 && cfg.jsonPath.None? && |cfg.extractPatterns| > 0 ==>
              s == RegexRules(cfg.extractPatterns)
    ensures |cfg.jsonPaths| == 0 && cfg.jsonPath.None? && |cfg.extractPatterns| == 0 && cfg.extractPattern.Some? ==>
              s == RegexRules(map[cfg.outputProperty := cfg.extractPattern.value])
    ensures s.NoRules? <==>
              |cfg.jsonPaths| == 0 && cfg.jsonPath.None? && |cfg.extractPatterns| == 0 && cfg.extractPattern.None?
  {
    if |cfg.jsonPaths| > 0 then JsonRules(cfg.jsonPaths)
    else if cfg.jsonPath.Some? then JsonRules(map[cfg.outputProperty := cfg.jsonPath.value])
    else if |cfg.extractPatterns| > 0 then RegexRules(cfg.extractPatterns)
    else if cfg.extractPattern.Some? then RegexRules(map[cfg.outputProperty := cfg.extractPattern.value])
    else NoRules
  }

  /**
   * `extractAndSetProperties(body)`: only the chosen rule set runs, so with
   * no extraction configured the properties stay as they are, and existing
   * properties are never removed. `ExtractAndSetEffect` states the rest.
   */
  function ExtractAndSet(cfg: Config, body: string, props: Properties, oracles: Oracles): (r: Properties)
    ensures SelectRules(cfg).NoRules? ==> r == props
    ensures props.Keys <= r.Keys
  {
    ApplyRules(props, SelectRules(cfg), body, oracles)
  }

  /**
   * After `extractAndSetProperties`, each rule of the chosen set that yields
   * a value has set its output name, whatever the other rules yield, and
   * every other property keeps its value or stays absent.
   */
  lemma ExtractAndSetEffect(cfg: Config, body: string, props: Properties, oracles: Oracles)
    ensures var rules := SelectRules(cfg);
      var r := ExtractAndSet(cfg, body, props, oracles);
      forall name :: name in rules.Targets() && rules.ValueFor(name, body, oracles).Some? ==>
        name in r && r[name] == rules.ValueFor(name, body, oracles).value
    ensures var rules := SelectRules(cfg);
      var r := ExtractAndSet(cfg, body, props, oracles);
      forall name :: name !in rules.Targets() || rules.ValueFor(name, body, oracles).None? ==>
        (name in r <==> name in props) && (name in props ==> r[name] == props[name])
  {
    ApplyRulesEffect(props, SelectRules(cfg), body, oracles);
  }

  /**
   * A non-empty `jsonPaths` decides the outcome alone: the single JSONPath,
   * both regular-expression settings and `outputProperty` play no part.
   */
  lemma JsonPathsTakePrecedence(cfg: Config, body: string, props: Properties, oracles: Oracles,
                                jsonPath: Option<string>, patterns: map<string, string>,
                                pattern: Option<string>, output: string)
    requires |cfg.jsonPaths| > 0
    ensures ExtractAndSet(cfg, body, props, oracles) ==
            ExtractAndSet(cfg.(jsonPath := jsonPath, extractPatterns := patterns,
                               extractPattern := pattern, outputProperty := output), body, props, oracles)
  {
  }
}

=== FILE: form_encoding.dfy ===
/**
 * `URLEncoder.encode(_, UTF_8)` and the `application/x-www-form-urlencoded`
 * serializer of section 5.2 of the WHATWG URL Standard, which the request
 * body uses for `formData`: each name and value is percent-encoded, the two
 * are joined with `=`, and the pairs with `&`.
 *
 * The partner of the serializer is a parser that undoes it; the main result
 * is the round trip `Parse(Serialize(pairs)) == pairs`.
 */
module FormEncoding {
  import opened Wrappers

  type Byte = b: int | 0 <= b < 256

  /** Characters the encoder leaves as they are. */
  predicate IsUnreserved(c: char) {
    || 'a' <= c <= 'z' || 'A' <= c <= 'Z' || '0' <= c <= '9'
    || c == '.' || c == '-' || c == '*' || c == '_'
  }

  // ---------------------------------------------------------------- UTF-8

  /** The UTF-8 encoding of one Unicode scalar value. */
  function Utf8(c: char): (bytes: seq<Byte>)
    ensures 1 <= |bytes| <= 4
  {
    var n := c as int;
    if n < 0x80 then [n]
    else if n < 0x800 then [0xC0 + n / 64, 0x80 + n % 64]
    else if n < 0x1_0000 then [0xE0 + n / 4096, 0x80 + (n / 64) % 64, 0x80 + n % 64]
    else [0xF0 + n / 262144, 0x80 + (n / 4096) % 64, 0x80 + (n / 64) % 64, 0x80 + n % 64]
  }

  /** How many bytes a UTF-8 sequence starting with `lead` has; 0 for a byte no sequence starts with. */
  function SequenceLength(lead: Byte): nat {
    if lead < 0x80 then 1
    else if 0xC0 <= lead < 0xE0 then 2
    else if 0xE0 <= lead < 0xF0 then 3
    else if 0xF0 <= lead < 0xF8 then 4
    else 0
  }

  predicate IsContinuation(b: Byte) {
    0x80 <= b < 0xC0
  }

  /** The number a UTF-8 sequence of one to four bytes carries in its payload bits. */
  function Payload(bytes: seq<Byte>): int
    requires 1 <= |bytes| <= 4
  {
    var b0: int := bytes[0];
    if |bytes| == 1 then b0
    else
      var b1: int := bytes[1] as int - 0x80;
      if |bytes| == 2 then (b0 - 0xC0) * 64 + b1
      else
        var b2: int := bytes[2] as int - 0x80;
        if |bytes| == 3 then (b0 - 0xE0) * 4096 + b1 * 64 + b2
        else (b0 - 0xF0) * 262144 + b1 * 4096 + b2 * 64 + (bytes[3] as int - 0x80)
  }

  predicate IsScalarValue(n: int) {
    0 <= n < 0xD800 || 0xE000 <= n < 0x11_0000
  }

  /** The character one UTF-8 sequence stands for, when it is a well-formed sequence for a scalar value. */
  function DecodeUtf8(bytes: seq<Byte>): Option<char>
  {
    if |bytes| == 0 || SequenceLength(bytes[0]) != |bytes| then None
    else if exists i :: 1 <= i < |bytes| && !IsContinuation(bytes[i]) then None
    else if IsScalarValue(Payload(bytes)) then Some(Payload(bytes) as char)
    else None
  }

  lemma Utf8TwoBytes(n: int)
    requires 0x80 <= n < 0x800
    ensures Payload([0xC0 + n / 64, 0x80 + n % 64]) == n
  {
  }

  lemma Utf8ThreeBytes(n: int)
    requires 0x800 <= n < 0x1_0000
    ensures Payload([0xE0 + n / 4096, 0x80 + (n / 64) % 64, 0x80 + n % 64]) == n
  {
    assert n / 64 == (n / 4096) * 64 + (n / 64) % 64;
  }

  lemma Utf8FourBytes(n: int)
    requires 0x1_0000 <= n < 0x11_0000
    ensures Payload([0xF0 + n / 262144, 0x80 + (n / 4096) % 64, 0x80 + (n / 64) % 64, 0x80 + n % 64]) == n
  {
    assert n / 4096 == (n / 262144) * 64 + (n / 4096) % 64;
    assert n / 64 == (n / 4096) * 64 + (n / 64) % 64;
  }

  /** Decoding undoes `Utf8`, and the lead byte announces the sequence's length. */
  lemma Utf8RoundTrip(c: char)
    ensures SequenceLength(Utf8(c)[0]) == |Utf8(c)|
    ensures DecodeUtf8(Utf8(c)) == Some(c)
  {
    var n := c as int;
    if n < 0x80 {
    } else if n < 0x800 {
      Utf8TwoBytes(n);
    } else if n < 0x1_0000 {
      Utf8ThreeBytes(n);
    } else {
      Utf8FourBytes(n);
    }
  }

  // ------------------------------------------------------- percent-encoding

  /** The upper-case hexadecimal digit for `d`, as `URLEncoder` writes it. */
  function HexDigit(d: nat): char
    requires d < 16
  {
    if d < 10 then ('0' as int + d) as char else ('A' as int + d - 10) as char
  }

  /** The value of a hexadecimal digit of either case. */
  function HexValue(c: char): Option<nat> {
    if '0' <= c <= '9' then Some(c as int - '0' as int)
    else if 'A' <= c <= 'F' then Some(c as int - 'A' as int + 10)
    else if 'a' <= c <= 'f' then Some(c as int - 'a' as int + 10)
    else None
  }

  predicate IsHexDigit(c: char) {
    HexValue(c).Some?
  }

  /** Each byte as `%XY`. */
  function PercentEncode(bytes: seq<Byte>): (s: string)
    ensures |s| == 3 * |bytes|
    ensures forall i :: 0 <= i < |s| ==> s[i] == '%' || IsHexDigit(s[i])
  {
    if |bytes| == 0 then ""
    else ['%', HexDigit(bytes[0] / 16), HexDigit(bytes[0] % 16)] + PercentEncode(bytes[1..])
  }

  /** `URLEncoder.encode` of one character. */
  function EncodeChar(c: char): string {
    if IsUnreserved(c) then [c]
    else if c == ' ' then "+"
    else PercentEncode(Utf8(c))
  }

  /** A character the encoder may emit. */
  predicate IsEncodedChar(c: char) {
    IsUnreserved(c) || c == '+' || c == '%' || IsHexDigit(c)
  }

  /**
   * `URLEncoder.encode(s, UTF_8)`: the output holds only unreserved
   * characters, `+` and percent escapes, so never a `&` or an `=`.
   */
  function Encode(s: string): (r: string)
    ensures forall i :: 0 <= i < |r| ==> IsEncodedChar(r[i])
    ensures '&' !in r && '=' !in r
  {
    if |s| == 0 then ""
    else EncodeChar(s[0]) + Encode(s[1..])
  }

  // --------------------------------------------------------------- decoding

  /** The byte a `%XY` escape at the start of `s` stands for. */
  function ReadByte(s: string): (r: Option<Byte>)
    ensures r.Some? ==> |s| >= 3
  {
    if |s| >= 3 && s[0] == '%' && HexValue(s[1]).Some? && HexValue(s[2]).Some?
    then Some(16 * HexValue(s[1]).value + HexValue(s[2]).value)
    else None
  }

  /** `count` consecutive escapes at the start of `s`. */
  function ReadBytes(s: string, count: nat): (r: Option<seq<Byte>>)
    ensures r.Some? ==> |r.value| == count && 3 * count <= |s|
  {
    if count == 0 then Some([])
    else match ReadByte(s)
      case None => None
      case Some(b) =>
        match ReadBytes(s[3..], count - 1)
        case None => None
        case Some(bs) => Some([b] + bs)
  }

  /** The character a run of escapes at the start of `s` encodes, with the run's length. */
  function DecodeEscapes(s: string): (r: Option<(char, nat)>)
    ensures r.Some? ==> 3 <= r.value.1 <= |s|
  {
    match ReadByte(s)
    case None => None
    case Some(lead) =>
      var n := SequenceLength(lead);
      if n == 0 then None
      else match ReadBytes(s, n)
        case None => None
        case Some(bs) =>
          match DecodeUtf8(bs)
          case None => None
          case Some(c) => Some((c, 3 * n))
  }

  /**
   * The decoding the form parser applies to a name or a value: `+` is a
   * space, a well-formed run of escapes is the character it encodes, and
   * anything else stands for itself.
   */
  function Decode(s: string): string
    decreases |s|
  {
    if |s| == 0 then ""
    else if s[0] == '+' then " " + Decode(s[1..])
    else if s[0] == '%' && DecodeEscapes(s).Some? then
      [DecodeEscapes(s).value.0] + Decode(s[DecodeEscapes(s).value.1..])
    else [s[0]] + Decode(s[1..])
  }

  lemma HexRoundTrip(d: nat)
    requires d < 16
    ensures HexValue(HexDigit(d)) == Some(d)
  {
  }

  lemma ReadEscapedBytes(bytes: seq<Byte>, rest: string)
    ensures ReadBytes(PercentEncode(bytes) + rest, |bytes|) == Some(bytes)
  {
    if |bytes| > 0 {
      var b := bytes[0];
      var s := PercentEncode(bytes) + rest;
      HexRoundTrip(b / 16);
      HexRoundTrip(b % 16);
      assert 16 * (b / 16) + b % 16 == b;
      assert ReadByte(s) == Some(b);
      assert s[3..] == PercentEncode(bytes[1..]) + rest;
      ReadEscapedBytes(bytes[1..], rest);
      assert [b] + bytes[1..] == bytes;
    }
  }

  lemma DecodeEscapesOfChar(c: char, rest: string)
    ensures DecodeEscapes(PercentEncode(Utf8(c)) + rest) == Some((c, 3 * |Utf8(c)|))
  {
    var bs := Utf8(c);
    var s := PercentEncode(bs) + rest;
    ReadEscapedBytes(bs, rest);
    ReadEscapedBytes(bs[..1], PercentEncode(bs[1..]) + rest);
    assert PercentEncode(bs) == PercentEncode(bs[..1]) + PercentEncode(bs[1..]);
    assert ReadByte(s) == Some(bs[0]);
    Utf8RoundTrip(c);
  }

  /** Decoding one encoded character consumes exactly its encoding. */
  lemma DecodeEncodedChar(c: char, rest: string)
    ensures Decode(EncodeChar(c) + rest) == [c] + Decode(rest)
  {
    var s := EncodeChar(c) + rest;
    if IsUnreserved(c) {
      assert s[0] == c && s[1..] == rest;
    } else if c == ' ' {
      assert s[0] == '+' && s[1..] == rest;
    } else {
      DecodeEscapesOfChar(c, rest);
      assert s[0] == '%';
      assert s[3 * |Utf8(c)|..] == rest;
    }
  }

  /** `Decode` undoes `Encode` for every string. */
  lemma {:induction false} DecodeEncode(s: string)
    ensures Decode(Encode(s)) == s
  {
    if |s| > 0 {
      DecodeEncodedChar(s[0], Encode(s[1..]));
      DecodeEncode(s[1..]);
      assert [s[0]] + s[1..] == s;
    }
  }

  // ------------------------------------------------------ the form body

  /** One entry as `name=value`, both sides encoded. */
  function EncodePair(entry: (string, string)): string {
    Encode(entry.0) + "=" + Encode(entry.1)
  }

  /** The entries' encodings joined with `&`, as `Collectors.joining("&")` does. */
  function Serialize(entries: seq<(string, string)>): string {
    if |entries| == 0 then ""
    else if |entries| == 1 then EncodePair(entries[0])
    else EncodePair(entries[0]) + "&" + Serialize(entries[1..])
  }

  /** The position of the first `c` in `s`. */
  function IndexOf(s: string, c: char): (i: nat)
    requires c in s
    ensures i < |s| && s[i] == c && c !in s[..i]
  {
    if s[0] == c then 0 else 1 + IndexOf(s[1..], c)
  }

  /** `s` cut at every `sep`; always at least one piece. */
  function Split(s: string, sep: char): (pieces: seq<string>)
    ensures |pieces| >= 1
    decreases |s|
  {
    if sep !in s then [s]
    else
      var i := IndexOf(s, sep);
      [s[..i]] + Split(s[i + 1..], sep)
  }

  /** A piece cut at its first `=`: name and value, or the whole piece and an empty value. */
  function SplitEntry(piece: string): (string, string) {
    if '=' in piece then
      var i := IndexOf(piece, '=');
      (piece[..i], piece[i + 1..])
    else (piece, "")
  }

  /** The decoded entries of the non-empty pieces, in order. */
  function ParsePieces(pieces: seq<string>): seq<(string, string)> {
    if |pieces| == 0 then []
    else if pieces[0] == "" then ParsePieces(pieces[1..])
    else
      var (name, value) := SplitEntry(pieces[0]);
      [(Decode(name), Decode(value))] + ParsePieces(pieces[1..])
  }

  /** The `application/x-www-form-urlencoded` parser: the partner of `Serialize`. */
  function Parse(body: string): seq<(string, string)> {
    ParsePieces(Split(body, '&'))
  }

  lemma SplitAtFirst(p: string, sep: char, rest: string)
    requires sep !in p
    ensures Split(p + [sep] + rest, sep) == [p] + Split(rest, sep)
  {
    var s := p + [sep] + rest;
    assert s[|p|] == sep;
    var i := IndexOf(s, sep);
    assert s[..i] == p && s[i + 1..] == rest;
  }

  lemma SplitEncodedEntry(entry: (string, string))
    ensures SplitEntry(EncodePair(entry)) == (Encode(entry.0), Encode(entry.1))
  {
    var name := Encode(entry.0);
    var s := EncodePair(entry);
    assert s[|name|] == '=';
    var i := IndexOf(s, '=');
    assert s[..i] == name && s[i + 1..] == Encode(entry.1);
  }

  lemma ParseOnePiece(entry: (string, string), rest: seq<string>)
    ensures ParsePieces([EncodePair(entry)] + rest) == [entry] + ParsePieces(rest)
  {
    var pieces := [EncodePair(entry)] + rest;
    assert pieces[0] != "" by { assert pieces[0][|Encode(entry.0)|] == '='; }
    assert pieces[1..] == rest;
    SplitEncodedEntry(entry);
    DecodeEncode(entry.0);
    DecodeEncode(entry.1);
  }

  /** Parsing a serialized form gives back its entries, in order. */
  lemma {:induction false} ParseSerialize(entries: seq<(string, string)>)
    ensures Parse(Serialize(entries)) == entries
  {
    if |entries| == 0 {
      assert Split("", '&') == [""];
      assert ParsePieces([""]) == ParsePieces([]);
    } else {
      var piece := EncodePair(entries[0]);
      assert '&' !in piece;
      if |entries| == 1 {
        assert Split(piece, '&') == [piece];
        ParseOnePiece(entries[0], []);
        assert [piece] + [] == [piece];
        assert Parse(Serialize(entries)) == [entries[0]];
      } else {
        SplitAtFirst(piece, '&', Serialize(entries[1..]));
        assert Serialize(entries) == piece + ['&'] + Serialize(entries[1..]);
        ParseOnePiece(entries[0], Split(Serialize(entries[1..]), '&'));
        ParseSerialize(entries[1..]);
        assert Parse(Serialize(entries)) == [entries[0]] + Parse(Serialize(entries[1..]));
      }
      assert [entries[0]] + entries[1..] == entries;
    }
  }

  /**
   * The characters of the plugin's own form-data test that change: the space
   * becomes `+` and `@` its one-byte escape; a two-byte character becomes two
   * escapes with upper-case digits.
   */
  lemma EncodeCharExamples()
    ensures EncodeChar(' ') == "+"
    ensures EncodeChar('@') == "%40"
    ensures EncodeChar('\U{E9}') == "%C3%A9"
  {
  }
}

=== FILE: requests.dfy ===
/** `buildRequest` and `getBodyPublisher`: what one attempt sends. */
module Requests {
  import opened Wrappers
  import opened Configuration
  import opened FormEncoding

  /** `BodyPublishers.ofString(content)` or `BodyPublishers.noBody()`. */
  datatype Body = NoBody | StringBody(content: string)

  /**
   * `getBodyPublisher`: a non-empty `formData` is sent form-encoded and wins
   * over `body`; otherwise a present `body` is sent verbatim; otherwise
   * nothing is sent. The form body is stated by what it parses back to.
   */
  function SelectBody(formData: seq<(string, string)>, body: Option<string>): (r: Body)
    ensures |formData| > 0 ==> r.StringBody? && Parse(r.content) == formData
    ensures |formData| == 0 && body.Some? ==> r == StringBody(body.value)
    ensures |formData| == 0 && body.None? ==> r == NoBody
  {
    if |formData| > 0 then
      ParseSerialize(formData);
      StringBody(Serialize(formData))
    else if body.Some? then StringBody(body.value)
    else NoBody
  }

  /** The request every attempt builds; the same for all attempts of one invocation. */
  datatype Request = Request(
    httpMethod: string,
    url: string,
    headers: map<string, string>,
    body: Body,
    timeout: int32)

  /**
   * `buildRequest`: the configured method, URL, every configured header and
   * timeout, with the body `getBodyPublisher` chooses; the form, when there
   * is one, is what the body parses back to.
   */
  function BuildRequest(cfg: Config): (r: Request)
    ensures r.httpMethod == cfg.httpMethod && r.url == cfg.url && r.timeout == cfg.timeout
    ensures r.headers == cfg.headers
    ensures |cfg.formData| > 0 ==> r.body.StringBody? && Parse(r.body.content) == cfg.formData
    ensures |cfg.formData| == 0 ==> (r.body.StringBody? <==> cfg.body.Some?)
    ensures |cfg.formData| == 0 && cfg.body.Some? ==> r.body.content == cfg.body.value
  {
    Request(cfg.httpMethod, cfg.url, cfg.headers, SelectBody(cfg.formData, cfg.body), cfg.timeout)
  }

  /**
   * The request depends only on the request settings: retries, extraction,
   * the response file and the failure switches never change what is sent.
   */
  lemma RequestIgnoresResponseSettings(cfg: Config, other: Config)
    requires other.httpMethod == cfg.httpMethod && other.url == cfg.url && other.headers == cfg.headers
    requires other.formData == cfg.formData && other.body == cfg.body && other.timeout == cfg.timeout
    ensures BuildRequest(other) == BuildRequest(cfg)
  {
  }

  /** Every entry of the form appears, encoded, in the body; `body` plays no part. */
  lemma FormDataWins(formData: seq<(string, string)>, body: Option<string>, other: Option<string>)
    requires |formData| > 0
    ensures SelectBody(formData, body) == SelectBody(formData, other)
    ensures forall i :: 0 <= i < |formData| ==> formData[i] in Parse(SelectBody(formData, body).content)
  {
  }
}

=== FILE: response.dfy ===
/** `handleResponse`: status check, optional file save, extraction. */
module Response {
  import opened Wrappers
  import opened Configuration
  import opened Extraction

  /** What `client.send` hands back: the status code and the body as a string. */
  datatype HttpResponse = HttpResponse(status: int, body: string)

  /**
   * `Files.write(Paths.get(path), bytes)`: done, an `IOException` (caught and
   * logged), or an `InvalidPathException` from `Paths.get`, which is not an
   * `IOException` and so escapes the handler.
   */
  datatype WriteResult = Written | WriteFailed | PathRejected

  datatype SaveOutcome = NotRequested | Saved | SaveFailed

  /**
   * How `handleResponse` ends: the `MojoExecutionException` for an error
   * status, the unchecked exception of a rejected file path, or normally,
   * with the save outcome and the properties after extraction.
   */
  datatype Handled =
    | StatusError(status: int)
    | SavePathRejected
    | Processed(saved: SaveOutcome, props: Properties)

  predicate IsErrorStatus(status: int) {
    status >= 400
  }

  /**
   * An error status with `failOnError` ends the call before anything else
   * happens: no file is written and no property changes. Any other
   * response, error statuses included, is saved when a file is configured
   * (a failed write is only a warning) and then extracted from.
   */
  function HandleResponse(cfg: Config, response: HttpResponse, props: Properties,
                          write: (string, string) -> WriteResult, oracles: Oracles): (r: Handled)
    ensures r.StatusError? <==> IsErrorStatus(response.status) && cfg.failOnError
    ensures r.StatusError? ==> r.status == response.status
    ensures r.SavePathRejected? <==>
              !(IsErrorStatus(response.status) && cfg.failOnError) &&
              cfg.responseFile.Some? && write(cfg.responseFile.value, response.body) == PathRejected
    ensures r.Processed? ==> r.props == ExtractAndSet(cfg, response.body, props, oracles)
    ensures r.Processed? ==> (r.saved == NotRequested <==> cfg.responseFile.None?)
    ensures r.Processed? ==> (r.saved == Saved <==>
              cfg.responseFile.Some? && write(cfg.responseFile.value, response.body) == Written)
  {
    if IsErrorStatus(response.status) && cfg.failOnError then StatusError(response.status)
    else
      var saved :=
        if cfg.responseFile.None? then Some(NotRequested)
        else match write(cfg.responseFile.value, response.body)
          case Written => Some(Saved)
          case WriteFailed => Some(SaveFailed)
          case PathRejected => None;
      if saved.None? then SavePathRejected
      else Processed(saved.value, ExtractAndSet(cfg, response.body, props, oracles))
  }

  /** Without `failOnError`, an error status still reaches extraction. */
  lemma ErrorStatusStillExtracts(cfg: Config, response: HttpResponse, props: Properties,
                                 write: (string, string) -> WriteResult, oracles: Oracles)
    requires IsErrorStatus(response.status) && !cfg.failOnError
    requires cfg.responseFile.None? || write(cfg.responseFile.value, response.body) != PathRejected
    ensures HandleResponse(cfg, response, props, write, oracles).Processed?
    ensures HandleResponse(cfg, response, props, write, oracles).props ==
            ExtractAndSet(cfg, response.body, props, oracles)
  {
  }
}

=== FILE: wrappers.dfy ===
/** Optional values: the model's stand-in for Java's nullable references. */
module Wrappers {

  datatype Option<+T> = None | Some(value: T) {

    /** The wrapped value, or `default` when there is none. */
    function GetOr(default: T): T {
      match this
      case Some(v) => v
      case None => default
    }
  }
}
